=== FILE: README.md ===
# backbone.marionette.export — a Dafny model of `export()`

This project models the `export()` routine that backbone.marionette.export adds to
Backbone models and collections, and the `serializeData` replacement it installs on
Marionette item views. It proves properties of that model.

A call to `export()` turns an entity into template data. It runs these steps in a fixed order:

1. It runs `onBeforeExport`.
2. It takes the base data. For a model this is the attribute hash (`toJSON`). For a
   collection it is the array of its models' `export()` results.
3. It resolves each entry of the `exportable` declaration and merges the result. A model
   stores the result in its hash. A collection stores it in a `meta` hash hung on the array.
4. It passes the data through `onExport`.
5. It runs `onAfterExport` and returns the data.

An error that `export()` itself throws aborts the call.

Files:

- `values.dfy` (`JsValues`): JavaScript values and truthiness. It also holds the default
  string order of `Array.prototype.sort` and the least element of a finite set of names.
- `entities.dfy` (`Entities`): models, collections and their state. It also holds the three
  lifecycle hooks and their defaults, plus `toJSON`.
- `exporter.dfy` (`Exporter`): `export()` itself. This covers name normalisation, the
  declaration as a list, entry resolution with its errors, merging, and the model and
  collection exports.
- `properties.dfy` (`ExportProperties`): lemmas about `export()`.
- `itemview.dfy` (`ItemView`): `serializeData` and its lemmas.
- `discrepancies.dfy` (`SourceDiscrepancies`): two places where the code disagrees with its own intent.

Modelling choices:

- An entity is a state plus hooks.
  - A model's state is its attributes plus its members, the values reachable as `model[name]`.
  - A collection's state is its models plus its members.
  - The `exportable` declaration is the member named `exportable`.
  - onBeforeExport and onAfterExport act on the state. onExport acts on the data alone: it
    reads and returns the data, and can neither read nor change the entity. `None` stands
    for a hook that is not defined; the source skips such a hook.
- A function object is `Fn(id, ret)`. Its `id` stands for its identity and `ret` for what a
  call with no arguments returns. A function reference is found under the least member
  name, in sort order, whose value equals it. When no member holds it, its key is
  `"undefined"`, because JavaScript turns `data[undefined]` into that key.
- An error `export()` itself throws is `Err(...)`. The caller gets no data and no updated entity.
  Declared methods and hooks always return.
- `export()` returns the data together with the entity as the hooks left it.

Where the source and its tests disagree, this model follows `backbone.marionette.export.js`:

- The tests under `spec/` target a later source with max hops, strict mode, reserved names and
  recursive export. That source is not part of this model.
- tests/spec/model.test.js:84-96 expects function references to throw. The code accepts them.
- tests/spec/model.test.js:108-119 expects a declared model property to throw. The code skips it.
- tests/spec/collection.test.js:92-121 reads collection results at the array's top level. The
  code puts them under `meta`.
- tests/spec/collection.test.js:170-201 expects reserved-name checks and recursive export.
  Neither is in the code.

## Model

| member | source | states |
|---|---|---|
| Exporter.MethodName | backbone.marionette.export.js:140 | the member name is the entry with a leading `this.` removed: the entry equals `this.` + name when it has the prefix, and is the name itself otherwise |
| Exporter.Entries | backbone.marionette.export.js:127-130 | an array declaration yields its entries in order, any other truthy declaration a one-element list, a falsy or absent one nothing |
| Exporter.FunctionName | backbone.marionette.export.js:147-153 | a function reference is named by the member holding it that sorts first; there is no name exactly when no member holds it |
| Exporter.ResolveEntry | backbone.marionette.export.js:132-157 | `undefined` fails as an undefined reference; a string resolves exactly when its member is truthy, and otherwise fails naming that member; a function always resolves to itself, stored under the least name of a member holding it, or under `"undefined"` when no member holds it; anything else fails as an invalid identifier |
| Exporter.Merge | backbone.marionette.export.js:159-177 | a function's result is stored under the entry's key and every other key is kept; only the as-written collection rule can fail |
| Exporter.MergeAll | backbone.marionette.export.js:132-179 | processing the declaration never succeeds unless every entry resolves; with either corrected rule it succeeds exactly when every entry resolves, and with the as-written collection rule exactly when every entry resolves to a function; it never drops a key of the base data |
| Exporter.ExportModel | backbone.marionette.export.js:101-189 | a model's export succeeds exactly when every entry of the declaration, as onBeforeExport left it, resolves; without onExport the result is a hash holding every attribute key; the entity returned is the state after both hooks ran |
| Exporter.ExportAll | backbone.marionette.export.js:115 | the models are exported in order: the result has their number and element i is model i's export; it fails exactly when some model's export fails, with the error of the first model that fails, as `this.map` stops there |
| Exporter.MetaProps | backbone.marionette.export.js:159-169 | the array gets a `meta` hash exactly when the declaration has an entry, and no other named property |
| Exporter.ExportCollectionBy | backbone.marionette.export.js:101-189 | a collection's export succeeds only when every model exports and every entry resolves; with the corrected rule it succeeds exactly then, and as line 169 is written exactly when, in addition, every entry resolves to a function; a failing model makes it fail with the first failing model's error; the entity returned is onAfterExport applied to the models as their own exports left them and the members; without onExport it is an array as long as its models (after onBeforeExport), element i is model i's export, and it has `meta` exactly when the declaration has entries, holding the merged entries |
| ExportProperties.QualifiedNameDropsPrefix | backbone.marionette.export.js:140 | `"this.X"` names the member `X` |
| ExportProperties.QualifiedAndPlainNamesAgree | backbone.marionette.export.js:137-142 | `"this.X"` and `"X"` resolve identically if and only if `X` does not itself begin with `this.` |
| ExportProperties.EntriesProcessedInOrder | backbone.marionette.export.js:132-179 | processing a list is processing its first part and then the rest on the result; an error in the first part aborts the whole |
| ExportProperties.MergedKeys | backbone.marionette.export.js:132-179 | after a successful pass a key is present exactly when it was in the base data or some entry writes it (a model's entries write methods only) |
| ExportProperties.MergedUntouched | backbone.marionette.export.js:132-179 | a key of the base data that no entry writes keeps its base value |
| ExportProperties.MergedLastWrite | backbone.marionette.export.js:132-179 | the last entry writing a key decides its value: a method's result, or for a collection a property's value |
| ExportProperties.LaterEntryWins | backbone.marionette.export.js:171-177 | when two entries store under the same key, the later one's result is kept |
| ExportProperties.SingleDeclarationActsAsList | backbone.marionette.export.js:127-130 | a single truthy declaration that is not an array, not a function, and not a string naming `exportable` itself gives the same result as the one-element array holding it |
| ExportProperties.FalsyDeclarationExportsSnapshot | backbone.marionette.export.js:121-127 | with a falsy declaration the export is the attribute hash after onBeforeExport, passed through onExport |
| ExportProperties.DefaultModelExportIsToJSON | backbone.marionette.export.js:97-99 | with the default hooks and no declaration, `export()` equals `toJSON()` and the model is unchanged |
| ExportProperties.MethodResultOverridesAttribute | backbone.marionette.export.js:171-177 | a declared method's result is stored under its name, overriding an attribute of that name, and the rest of the hash is the attributes |
| ExportProperties.PropertyLeavesModelDataUnchanged | backbone.marionette.export.js:171-177 | a declared truthy non-function member of a model leaves the exported hash equal to the attributes |
| ExportProperties.ModelDataByKey | backbone.marionette.export.js:121-177 | without onExport a model's hash holds, for each key, the result of the last declared method resolving to it, else the attribute value, and no key beyond attributes and written names |
| ExportProperties.TwoMethodNamesExportBoth | backbone.marionette.export.js:127-177 | a declaration `["method", "this.anotherMethod"]` exports both methods' results beside the attributes |
| ExportProperties.GreetExample | backbone.marionette.export.js:171-177 | a model `{id: 1}` exporting method `greet` that returns `"hi"` exports `{id: 1, greet: "hi"}` |
| ExportProperties.FirstBadEntryAborts | backbone.marionette.export.js:132-157 | a failure carries the error of the first entry that does not resolve, and every entry before it resolved |
| ExportProperties.ModelExportFailsAtFirstBadEntry | backbone.marionette.export.js:132-157 | a failed model export carries the error of the first unresolvable entry of its declaration |
| ExportProperties.CollectionExportFailsAtFirstError | backbone.marionette.export.js:115-157 | a failed collection export carries the first failing model's error, or, when every model exports, the error of the first unresolvable entry |
| ExportProperties.CollectionMissingMemberFails | backbone.marionette.export.js:141 | a collection declaring a missing member `missing` fails with the missing-method error naming `missing` once its models have exported |
| ExportProperties.MissingMemberFails | backbone.marionette.export.js:141 | declaring a missing member `missing` aborts the export with the missing-method error naming `missing` (message: `Can't export "missing". The method doesn't exist`) |
| ExportProperties.BadEntryMessages | backbone.marionette.export.js:135-156 | an `undefined` entry fails with the undefined-reference message, a non-string non-function entry with the invalid-identifier message |
| ExportProperties.ReferenceTakesItsMemberName | backbone.marionette.export.js:144-153 | a function reference held by exactly one member is stored under that member's name |
| ExportProperties.UnknownReferenceIsNamedUndefined | backbone.marionette.export.js:147-153 | a function reference no member holds is stored under `"undefined"` |
| ExportProperties.ReferenceNotInArrayIsNamedExportable | backbone.marionette.export.js:54-60 | `this.exportable = this.foo` exports foo's result under the name `exportable`, the gotcha the header comment warns about |
| ExportProperties.BeforeHookChangesAreVisible | backbone.marionette.export.js:105-121 | exporting a model equals applying onBeforeExport by hand and exporting without it: its changes reach the base data and the declaration |
| ExportProperties.TransformReceivesMergedData | backbone.marionette.export.js:183 | onExport is applied to the fully merged hash and its return value is the result |
| ExportProperties.AfterHookCannotChangeData | backbone.marionette.export.js:186-188 | onAfterExport changes the model's state but never the returned data |
| ExportProperties.DefaultCollectionExport | backbone.marionette.export.js:115 | a collection with default hooks and no declaration exports exactly its models' exports, in order, with no `meta` |
| ExportProperties.DefaultCollectionExportIsToJSON | backbone.marionette.export.js:115 | with default hooks and no declaration on the collection or its models, the collection's export equals its `toJSON()`, one attribute hash per model |
| ExportProperties.DeclarationNeverAltersElements | backbone.marionette.export.js:159-169 | two collections without onBeforeExport or onExport that differ only in their members export the same elements |
| ExportProperties.CollectionEntryGoesIntoMeta | backbone.marionette.export.js:159-169 | with line 169 corrected, a collection's declared member goes only into `meta`, under its name: a method's result or a property's value |
| ExportProperties.CollectionMetaByKey | backbone.marionette.export.js:159-169 | with line 169 corrected and no onExport, `meta` holds exactly the keys the entries resolve to, and the last entry resolving to a key decides its value |
| ExportProperties.CollectionBeforeHookChangesAreVisible | backbone.marionette.export.js:105-115 | a collection's onBeforeExport changes, including added or removed models, reach the export |
| ExportProperties.CollectionTransformReceivesMergedData | backbone.marionette.export.js:183 | a collection's onExport receives the array with its `meta`, and its return value is the result |
| ExportProperties.CollectionAfterHookCannotChangeData | backbone.marionette.export.js:186-188 | a collection's onAfterExport changes the collection but never the returned data |
| ItemView.ItemsData | backbone.marionette.export.js:206-207 | the template data holds `items` and every key of a truthy `items.meta` at the top level with meta's values, and no other key |
| ItemView.SerializeDataBy | backbone.marionette.export.js:200-210 | a model view gets the model's export when it is truthy and the `toJSON()` of the model as its hooks left it otherwise; a collection view gets `{items: …}` of the export or of the `toJSON()` fallback, extended with its `meta`; each fails exactly when the export fails, with its error; a view with neither gets `{}` |
| ItemView.CollectionMetaIsFlattened | backbone.marionette.export.js:205-208 | every key of a collection's `meta` appears at the top level of the template data beside `items` |
| ItemView.PlainCollectionGivesItemsOnly | backbone.marionette.export.js:205-208 | a collection with no declaration reaches the template as `{items: [...]}` with one element per model and no other key |
| SourceDiscrepancies.CollectionPropertyAsWrittenFails | backbone.marionette.export.js:169 | as written, a collection declaring an ordinary property fails because the property is called as a function |
| SourceDiscrepancies.PropertyCollectionExample | backbone.marionette.export.js:161-169 | the property collection of the older tests fails as written, and exports the property into `meta` once corrected |
| SourceDiscrepancies.PropertyCollectionViewExample | backbone.marionette.export.js:169 | a view over the property collection throws as written, and once corrected shows the property at the top level beside `items` |
| SourceDiscrepancies.CollectionPropertyIsExported | backbone.marionette.export.js:161-169 | corrected: a collection's declared property is stored in `meta` under its name, holding its value |
| SourceDiscrepancies.RulesAgreeOnMethods | backbone.marionette.export.js:169 | for methods the corrected and as-written rules agree |
| SourceDiscrepancies.CollectionLacksDefaultAfterHook | backbone.marionette.export.js:81 | as written, collections get no default onAfterExport while models do |
| SourceDiscrepancies.CollectionDefaultAfterHookIsNoOp | backbone.marionette.export.js:74-83 | corrected: collections get a no-op onAfterExport, and the missing default never changed an export's result or entity |

## Left out

- Everything absent from `backbone.marionette.export.js` is left out: max-hops cycle bounds,
  strict mode, reserved array names, recursive export of returned entities, and clone depth.
- Methods: a method's result is fixed by its function value. It does not read the entity, and
  calling it has no side effects. A before hook changes a method by replacing the member.
- Hooks act on the state, so a hook cannot replace the hooks themselves. Dafny does not allow
  a datatype to hold functions over itself.
- onExport sees only the data. The source calls it as a method of the entity (line 183), so it
  may call the entity's methods or change the entity, and onAfterExport then sees that change.
  The model drops such changes.
- Member lookup: `this[name]` sees only the members map. It does not see the hooks or
  Backbone's built-in methods and properties unless the caller lists them there.
- Errors thrown by user code: a declared method (`method.apply( this )`, lines 169 and 175)
  and the hooks (lines 105, 183 and 186) always return here, though in the source an error
  they throw propagates out of `export()`. Exporter.ExportModel, Exporter.ExportCollectionBy,
  ItemView.SerializeDataBy and ExportProperties.FirstBadEntryAborts state their success
  conditions and first errors for such code only: with `exportable: ["boom", "missing"]` and
  a throwing `boom`, the source fails with boom's error, not the missing-method error.
- Exceptions: when `export()` throws, the changes the hooks already made to the entity are not
  returned.
- Exporter.FunctionName: names are ordered by Unicode code point. JavaScript sorts by UTF-16
  code unit, and the two orders differ only for characters above U+FFFF and some above U+E000.
- Numbers are integers, so NaN and fractions are not modelled.
- ItemView.SerializeData, and the collection lemmas of ExportProperties, use the corrected
  line 169: a collection declaring an ordinary property gets its value in `meta`, where the
  code as written throws. `ItemView.SerializeDataAsWritten` keeps the throwing behaviour.
- ExportProperties.CollectionEntryGoesIntoMeta: states the corrected line 169 for a
  property; as written the export throws there (SourceDiscrepancies.CollectionPropertyAsWrittenFails).
- JsValues.OwnProps: `_.extend` also copies the index keys of an array or string `meta`.
  This is not modelled. Only the named properties are copied.
- Aliasing: nested objects that onExport mutates and that alias the model's attributes are
  not modelled, because values here are immutable.
- ExportProperties.AfterHookCannotChangeData: holds because values are immutable. In the source,
  `toJSON()` (line 121) is a shallow copy, so the returned hash shares nested objects with the
  model's attributes, and an onAfterExport that mutates one changes data already returned.
- ExportProperties.CollectionAfterHookCannotChangeData: holds for the same reason. In the source,
  the returned array shares nested objects with the models' attributes and with anything onExport
  kept on the collection, and an onAfterExport that mutates them changes the returned data.
- `Backbone.Marionette` detection (line 191) and the `export &&` guard (lines 203, 206) are left
  out. The library always installs `export()`, so the model always calls it.
- View rendering, the AMD/UMD wrapper (src/amd.js), the demos, karma.conf.js and the require
  configurations are left out. They are loading and configuration code, not the core.

## Findings

| source | as written | input that shows it | evidently intended | confidence | as-written member | corrected member |
|---|---|---|---|---|---|---|
| backbone.marionette.export.js:169 | a collection's declared member is always called through `apply`, even when it is an ordinary property | a collection with `exportable: "property"` and a string member `property`, as in tests/spec/collection.test.js:147-157: a TypeError is thrown | the property's value is stored in `meta.property`, as the comment at lines 161-167 describes | high; not executed | SourceDiscrepancies.CollectionPropertyAsWrittenFails | SourceDiscrepancies.CollectionPropertyIsExported |
| backbone.marionette.export.js:81 | the default no-op is assigned to the collection's onBeforeExport a second time instead of to its onAfterExport | any collection: `collection.onAfterExport` is undefined, so spying on it fails; the export's result is unchanged | collections get a no-op onAfterExport as models do | high; not executed | SourceDiscrepancies.CollectionLacksDefaultAfterHook | SourceDiscrepancies.CollectionDefaultAfterHookIsNoOp |

The main model uses the corrected rule: `Exporter.ExportCollection` and
`ItemView.SerializeData` store a property's value. `Exporter.ExportCollectionAsWritten` and
`ItemView.SerializeDataAsWritten` keep line 169 as written.

=== FILE: discrepancies.dfy ===
/**
 Two places where backbone.marionette.export.js does not do what its comments
 and its own defaults say, each with the code as written and the corrected
 behaviour the rest of the model uses.
 */
module SourceDiscrepancies {
  import opened JsValues
  import opened Entities
  import opened Exporter
  import ExportProperties
  import ItemView

  /* ----- Collection properties (line 169) ----- */

  /** As written, line 169 calls `method.apply( this )` on whatever member was
      found, so a collection that declares an ordinary property fails with a
      TypeError instead of exporting the property. */
  lemma CollectionPropertyAsWrittenFails(s: CollectionState, entry: string)
    requires Declaration(s.members) == Str(entry) && |entry| > 0
    requires Truthy(Lookup(s.members, MethodName(entry))) && !s.members[MethodName(entry)].Fn?
    requires forall i :: 0 <= i < |s.items| ==> ExportModel(s.items[i]).Ok?
    ensures ExportCollectionAsWritten(Collection(s, Hooks(None, None, None))) == Err(NotCallable(MethodName(entry)))
  {
  }

  /** The collection of the older test suite (tests/spec/collection.test.js,
      lines 147-157): no models, and `exportable: "property"` naming a string. */
  function PropertyCollection(): Collection {
    var value := Str("ordinary property value, not the result of a method call");
    Collection(CollectionState([], map["exportable" := Str("property"), "property" := value]), Hooks(None, None, None))
  }

  /** That collection fails as the code is written, and exports the property
      into `meta` with the corrected rule. */
  lemma PropertyCollectionExample()
    ensures ExportCollectionAsWritten(PropertyCollection()) == Err(NotCallable("property"))
    ensures ExportCollection(PropertyCollection()).Ok?
    ensures ExportCollection(PropertyCollection()).value.data
         == Arr([], map["meta" := Obj(map["property" := Str("ordinary property value, not the result of a method call")])])
  {
    var s := PropertyCollection().state;
    ExportProperties.NoThisPrefixWithoutLeadingT("property");
    CollectionPropertyAsWrittenFails(s, "property");
    CollectionPropertyIsExported(s, "property");
  }

  /** A view over that collection: as written, serializeData throws; once
      corrected, the template sees the property at its top level beside `items`. */
  lemma PropertyCollectionViewExample()
    ensures ItemView.SerializeDataAsWritten(ItemView.View(None, Some(PropertyCollection()))).Err?
    ensures var r := ItemView.SerializeData(ItemView.View(None, Some(PropertyCollection())));
            && r.Ok?
            && r.value.data.Obj?
            && r.value.data.fields.Keys == {"items", "property"}
            && r.value.data.fields["property"] == Str("ordinary property value, not the result of a method call")
  {
    PropertyCollectionExample();
    var meta := map["property" := Str("ordinary property value, not the result of a method call")];
    ItemView.CollectionMetaIsFlattened(PropertyCollection(), meta);
  }

  /** Corrected: a declared property of a collection goes into `meta` under its
      name, holding the property's value, as the comment at lines 161-167 says. */
  lemma CollectionPropertyIsExported(s: CollectionState, entry: string)
    requires Declaration(s.members) == Str(entry) && |entry| > 0
    requires Truthy(Lookup(s.members, MethodName(entry))) && !s.members[MethodName(entry)].Fn?
    requires forall i :: 0 <= i < |s.items| ==> ExportModel(s.items[i]).Ok?
    ensures var r := ExportCollection(Collection(s, Hooks(None, None, None)));
            && r.Ok?
            && r.value.data.props == map["meta" := Obj(map[MethodName(entry) := s.members[MethodName(entry)]])]
  {
    ExportProperties.CollectionEntryGoesIntoMeta(s, entry);
  }

  /** For methods the two rules agree: the correction only changes properties. */
  lemma RulesAgreeOnMethods(r: Resolved, acc: map<string, Value>)
    requires r.target.Fn?
    ensures Merge(IntoCollectionMeta, r, acc) == Merge(IntoCollectionMetaAsWritten, r, acc)
  {
  }

  /* ----- The collection's default onAfterExport (line 81) ----- */

  /** As written, line 81 assigns the no-op to the collection's onBeforeExport a
      second time, so collections get no default onAfterExport while models do. */
  lemma CollectionLacksDefaultAfterHook()
    ensures DefaultCollectionHooksAsWritten().after.None?
    ensures DefaultModelHooks().after.Some?
  {
  }

  /** Corrected: every collection has a no-op onAfterExport, like every model;
      and the missing default never changed what `export()` returns. */
  lemma CollectionDefaultAfterHookIsNoOp(s: CollectionState)
    ensures DefaultCollectionHooks().after.Some?
    ensures RunAfter(DefaultCollectionHooks(), s) == s
    ensures ExportCollection(Collection(s, DefaultCollectionHooks())).Ok?
         == ExportCollection(Collection(s, DefaultCollectionHooksAsWritten())).Ok?
    ensures ExportCollection(Collection(s, DefaultCollectionHooks())).Ok? ==>
      ExportCollection(Collection(s, DefaultCollectionHooks())).value.data
        == ExportCollection(Collection(s, DefaultCollectionHooksAsWritten())).value.data &&
      ExportCollection(Collection(s, DefaultCollectionHooks())).value.entity.state
        == ExportCollection(Collection(s, DefaultCollectionHooksAsWritten())).value.entity.state
  {
  }
}

=== FILE: entities.dfy ===
/**
 Backbone models and collections as the export routine sees them, with the three
 lifecycle hooks and their default implementations.

 A hook acts on the entity's state (its attributes or items, and its members),
 not on the hooks themselves.
 */
module Entities {
  import opened JsValues

  /** The state of a model: its attribute hash, and the properties and methods
      reachable as `model[name]`. The `exportable` declaration is the member of
      that name. */
  datatype ModelState = ModelState(attrs: map<string, Value>, members: map<string, Value>)

  /** The lifecycle hooks of an entity whose state has type S. A missing hook
      (`None`) is skipped, as the `if ( this.onX )` guards do. */
  datatype Hooks<!S> = Hooks(
    before: Option<S -> S>,             // onBeforeExport
    transform: Option<Value -> Value>,  // onExport
    after: Option<S -> S>               // onAfterExport
  )

  datatype Model = Model(state: ModelState, hooks: Hooks<ModelState>)

  /** The state of a collection: its models, in order, and its own members. */
  datatype CollectionState = CollectionState(items: seq<Model>, members: map<string, Value>)

  datatype Collection = Collection(state: CollectionState, hooks: Hooks<CollectionState>)

  /** The default hooks every model inherits: no-op before and after hooks, and
      an identity onExport. */
  function DefaultModelHooks(): Hooks<ModelState> {
    Hooks(Some(s => s), Some(d => d), Some(s => s))
  }

  /** The default hooks every collection inherits. The source assigns the
      collection's default onAfterExport to onBeforeExport a second time, so a
      collection has no onAfterExport unless it defines one (see
      DefaultCollectionHooksAsWritten). This is the intended set. */
  function DefaultCollectionHooks(): Hooks<CollectionState> {
    Hooks(Some(s => s), Some(d => d), Some(s => s))
  }

  /** The default hooks a collection gets from the code as written. */
  function DefaultCollectionHooksAsWritten(): Hooks<CollectionState> {
    Hooks(Some(s => s), Some(d => d), None)
  }

  /** Runs onBeforeExport, if present. */
  function RunBefore<S>(h: Hooks<S>, s: S): S {
    match h.before
    case None => s
    case Some(f) => f(s)
  }

  /** Runs onExport, if present, on the data. */
  function RunTransform<S>(h: Hooks<S>, data: Value): Value {
    match h.transform
    case None => data
    case Some(t) => t(data)
  }

  /** Runs onAfterExport, if present. */
  function RunAfter<S>(h: Hooks<S>, s: S): S {
    match h.after
    case None => s
    case Some(f) => f(s)
  }

  /** `model.toJSON()`: a shallow copy of the attribute hash. */
  function ModelToJSON(s: ModelState): Value {
    Obj(s.attrs)
  }

  /** `collection.toJSON()`: the array of the models' attribute hashes. */
  function CollectionToJSON(s: CollectionState): Value
  {
    Arr(seq(|s.items|, i requires 0 <= i < |s.items| => ModelToJSON(s.items[i].state)), map[])
  }
}

=== FILE: exporter.dfy ===
/**
 The `export()` routine shared by Backbone models and collections
 (backbone.marionette.export.js, lines 101-189).

 One call runs onBeforeExport, takes the base data (the attribute hash of a
 model, the exported models of a collection), resolves every entry of the
 `exportable` declaration and merges its result, passes the data through
 onExport, runs onAfterExport and returns the data. An error `export()` itself
 throws is an `Err`: it aborts the call and nothing is returned. Declared
 methods and hooks always return here.
 */
module Exporter {
  import opened JsValues
  import opened Entities

  /** The errors `export()` throws. */
  datatype ExportError =
    | UndefinedReference          // an entry of the declaration is `undefined`
    | MissingMethod(name: string) // a named member is missing or falsy
    | InvalidIdentifier           // an entry is neither a string nor a function
    | NotCallable(name: string)   // `method.apply` on a non-function (code as written, collections only)

  datatype Result<+T> = Ok(value: T) | Err(error: ExportError) {
    predicate IsFailure() {
      Err?
    }

    function PropagateFailure<U>(): Result<U>
      requires Err?
    {
      Err(error)
    }

    function Extract(): T
      requires Ok?
    {
      value
    }
  }

  /** The text of the Error each failure throws. The TypeError of `NotCallable`
      comes from the JavaScript engine; its text is engine dependent. */
  function Message(e: ExportError): string {
    match e
    case UndefinedReference => "Can't export method. Undefined method reference"
    case MissingMethod(name) => "Can't export \"" + name + "\". The method doesn't exist"
    case InvalidIdentifier => "'exportable' property: Invalid method identifier"
    case NotCallable(name) => "method.apply is not a function"
  }

  /** What `export()` returns, paired with the entity as the hooks left it. */
  datatype Exported<T> = Exported(data: Value, entity: T)

  const ThisPrefix: string := "this."

  predicate HasThisPrefix(s: string) {
    |ThisPrefix| <= |s| && s[..|ThisPrefix|] == ThisPrefix
  }

  /** The member name a string entry denotes: a leading `this.` is dropped. */
  function MethodName(s: string): (name: string)
    ensures HasThisPrefix(s) ==> s == ThisPrefix + name
    ensures !HasThisPrefix(s) ==> name == s
  {
    if HasThisPrefix(s) then s[|ThisPrefix|..] else s
  }

  /** The `exportable` declaration: the member of that name. */
  function Declaration(members: map<string, Value>): Value {
    Lookup(members, "exportable")
  }

  /** The declaration as a list of entries: an array is taken as it is, any
      other truthy value as a one-element list, a falsy one as no entries. */
  function Entries(decl: Value): (r: seq<Value>)
    ensures !Truthy(decl) ==> r == []
    ensures decl.Arr? ==> r == decl.elems
    ensures Truthy(decl) && !decl.Arr? ==> r == [decl]
  {
    if !Truthy(decl) then []
    else if decl.Arr? then decl.elems
    else [decl]
  }

  /** A resolved entry: the key its result is stored under and the member found. */
  datatype Resolved = Resolved(key: string, target: Value)

  /** The name under which a function reference is found: `_.functions` lists
      the function-valued members in sorted order and `_.find` takes the first
      one holding the reference. */
  function FunctionName(members: map<string, Value>, f: Value): (r: Option<string>)
    requires f.Fn?
    ensures r.None? <==> forall n :: n in members ==> members[n] != f
    ensures r.Some? ==> r.value in members && members[r.value] == f
    ensures r.Some? ==> forall n :: n in members && members[n] == f ==> StrLe(r.value, n)
  {
    var names := set n | n in members && members[n] == f;
    assert forall n :: n in members && members[n] == f ==> n in names;
    if names == {} then None else Some(Least(names))
  }

  /** Resolves one entry of the declaration against the entity's members. */
  function ResolveEntry(members: map<string, Value>, entry: Value): (r: Result<Resolved>)
    ensures entry.Undefined? ==> r == Err(UndefinedReference)
    ensures entry.Str? ==> (r.Ok? <==> Truthy(Lookup(members, MethodName(entry.s))))
    ensures entry.Str? && r.Ok? ==> r.value == Resolved(MethodName(entry.s), members[MethodName(entry.s)])
    ensures entry.Str? && r.Err? ==> r.error == MissingMethod(MethodName(entry.s))
    ensures entry.Fn? ==> r.Ok? && r.value.target == entry
    ensures entry.Fn? && (exists n :: n in members && members[n] == entry) ==>
      && r.value.key in members && members[r.value.key] == entry
      && forall n :: n in members && members[n] == entry ==> StrLe(r.value.key, n)
    ensures entry.Fn? && (forall n :: n in members ==> members[n] != entry) ==> r.value.key == "undefined"
    ensures !entry.Undefined? && !entry.Str? && !entry.Fn? ==> r == Err(InvalidIdentifier)
  {
    match entry
    case Undefined => Err(UndefinedReference)
    case Str(s) =>
      var name := MethodName(s);
      if !Truthy(Lookup(members, name)) then Err(MissingMethod(name))
      else Ok(Resolved(name, members[name]))
    case Fn(_, _) =>
      // `data[undefined] = …` stores under the key "undefined".
      var key := match FunctionName(members, entry) case Some(n) => n case None => "undefined";
      Ok(Resolved(key, entry))
    case _ => Err(InvalidIdentifier)
  }

  /** Where a resolved entry's result goes. */
  datatype MergeRule =
    | IntoModelData               // a model: the hash itself, methods only
    | IntoCollectionMeta          // a collection: the `meta` hash, methods and properties
    | IntoCollectionMetaAsWritten // a collection, as line 169 is written: `method.apply` on anything

  /** What a collection's meta entry holds: a method's result or a property's value. */
  function MetaValue(target: Value): Value
  {
    if target.Fn? then target.ret else target
  }

  /** Merges one resolved entry into the hash being built. */
  function Merge(rule: MergeRule, r: Resolved, acc: map<string, Value>): (res: Result<map<string, Value>>)
    ensures rule != IntoCollectionMetaAsWritten ==> res.Ok?
    ensures res.Ok? ==> res.value.Keys <= acc.Keys + {r.key}
    ensures res.Ok? ==> forall k :: k in acc && k != r.key ==> k in res.value && res.value[k] == acc[k]
    ensures r.target.Fn? ==> res == Ok(acc[r.key := r.target.ret])
  {
    match rule
    case IntoModelData =>
      if r.target.Fn? then Ok(acc[r.key := r.target.ret]) else Ok(acc)
    case IntoCollectionMeta =>
      Ok(acc[r.key := MetaValue(r.target)])
    case IntoCollectionMetaAsWritten =>
      if r.target.Fn? then Ok(acc[r.key := r.target.ret]) else Err(NotCallable(r.key))
  }

  /** Resolves and merges the entries in order; the first error aborts. */
  function MergeAll(rule: MergeRule, members: map<string, Value>, entries: seq<Value>, acc: map<string, Value>)
    : (r: Result<map<string, Value>>)
    ensures rule != IntoCollectionMetaAsWritten ==>
      (r.Ok? <==> forall i :: 0 <= i < |entries| ==> ResolveEntry(members, entries[i]).Ok?)
    ensures rule == IntoCollectionMetaAsWritten ==>
      (r.Ok? <==> forall i :: 0 <= i < |entries| ==>
                    ResolveEntry(members, entries[i]).Ok? && ResolveEntry(members, entries[i]).value.target.Fn?)
    ensures r.Ok? ==> forall i :: 0 <= i < |entries| ==> ResolveEntry(members, entries[i]).Ok?
    ensures r.Ok? ==> acc.Keys <= r.value.Keys
    decreases |entries|
  {
    if |entries| == 0 then Ok(acc)
    else
      var resolved :- ResolveEntry(members, entries[0]);
      var acc' :- Merge(rule, resolved, acc);
      MergeAll(rule, members, entries[1..], acc')
  }

  /** `export()` on a model. */
  function ExportModel(m: Model): (r: Result<Exported<Model>>)
    ensures var s := RunBefore(m.hooks, m.state);
      r.Ok? <==> forall i :: 0 <= i < |Entries(Declaration(s.members))| ==>
                   ResolveEntry(s.members, Entries(Declaration(s.members))[i]).Ok?
    ensures r.Ok? && m.hooks.transform.None? ==>
      r.value.data.Obj? && RunBefore(m.hooks, m.state).attrs.Keys <= r.value.data.fields.Keys
    ensures r.Ok? ==> r.value.entity.state == RunAfter(m.hooks, RunBefore(m.hooks, m.state))
  {
    var s := RunBefore(m.hooks, m.state);
    var merged :- MergeAll(IntoModelData, s.members, Entries(Declaration(s.members)), ModelToJSON(s).fields);
    var data := RunTransform(m.hooks, Obj(merged));
    Ok(Exported(data, Model(RunAfter(m.hooks, s), m.hooks)))
  }

  /** `this.map( model => model.export() )`: exports the models in order. */
  function ExportAll(items: seq<Model>): (r: Result<seq<Exported<Model>>>)
    ensures r.Ok? <==> forall i :: 0 <= i < |items| ==> ExportModel(items[i]).Ok?
    ensures r.Ok? ==> |r.value| == |items|
    ensures r.Ok? ==> forall i :: 0 <= i < |items| ==> r.value[i] == ExportModel(items[i]).value
    ensures r.Err? ==> exists i :: 0 <= i < |items| && ExportModel(items[i]) == Err(r.error) &&
                                  forall j :: 0 <= j < i ==> ExportModel(items[j]).Ok?
    decreases |items|
  {
    if |items| == 0 then Ok([])
    else
      var first :- ExportModel(items[0]);
      var rest :- ExportAll(items[1..]);
      Ok([first] + rest)
  }

  /** The models as their own hooks left them, read off each model's export. */
  function ModelsAfterExport(items: seq<Model>): seq<Model>
    requires forall i :: 0 <= i < |items| ==> ExportModel(items[i]).Ok?
  {
    seq(|items|, i requires 0 <= i < |items| => ExportModel(items[i]).value.entity)
  }

  /** The data of each exported model, in order. */
  function DataOf(exported: seq<Exported<Model>>): seq<Value>
  {
    seq(|exported|, i requires 0 <= i < |exported| => exported[i].data)
  }

  /** The models as their own hooks left them, in order. */
  function EntitiesOf(exported: seq<Exported<Model>>): seq<Model>
  {
    seq(|exported|, i requires 0 <= i < |exported| => exported[i].entity)
  }

  /** The named properties of the exported array: a `meta` hash holding the
      merged entries, created only when there is at least one entry. */
  function MetaProps(rule: MergeRule, members: map<string, Value>, entries: seq<Value>)
    : (r: Result<map<string, Value>>)
    ensures r.Ok? && |entries| == 0 ==> r.value == map[]
    ensures r.Ok? && |entries| > 0 ==> r.value.Keys == {"meta"} && r.value["meta"].Obj?
  {
    if |entries| == 0 then Ok(map[])
    else
      var meta :- MergeAll(rule, members, entries, map[]);
      Ok(map["meta" := Obj(meta)])
  }

  /** `export()` on a collection, with a given rule for the collection's own entries. */
  function ExportCollectionBy(c: Collection, rule: MergeRule): (r: Result<Exported<Collection>>)
    requires rule != IntoModelData
    ensures var s := RunBefore(c.hooks, c.state);
      var entries := Entries(Declaration(s.members));
      r.Ok? ==> && (forall i :: 0 <= i < |s.items| ==> ExportModel(s.items[i]).Ok?)
                && (forall i :: 0 <= i < |entries| ==> ResolveEntry(s.members, entries[i]).Ok?)
    ensures var s := RunBefore(c.hooks, c.state);
      var entries := Entries(Declaration(s.members));
      rule == IntoCollectionMeta ==>
        (r.Ok? <==> && (forall i :: 0 <= i < |s.items| ==> ExportModel(s.items[i]).Ok?)
                    && (forall i :: 0 <= i < |entries| ==> ResolveEntry(s.members, entries[i]).Ok?))
    ensures var s := RunBefore(c.hooks, c.state);
      var entries := Entries(Declaration(s.members));
      rule == IntoCollectionMetaAsWritten ==>
        (r.Ok? <==> && (forall i :: 0 <= i < |s.items| ==> ExportModel(s.items[i]).Ok?)
                    && (forall i :: 0 <= i < |entries| ==>
                          ResolveEntry(s.members, entries[i]).Ok? && ResolveEntry(s.members, entries[i]).value.target.Fn?))
    ensures var s := RunBefore(c.hooks, c.state);
      (exists i :: 0 <= i < |s.items| && ExportModel(s.items[i]).Err?) ==>
        r.Err? && exists i :: 0 <= i < |s.items| && ExportModel(s.items[i]) == Err(r.error) &&
                            forall j :: 0 <= j < i ==> ExportModel(s.items[j]).Ok?
    ensures var s := RunBefore(c.hooks, c.state);
      r.Ok? ==> r.value.entity == Collection(RunAfter(c.hooks, CollectionState(ModelsAfterExport(s.items), s.members)), c.hooks)
    ensures var s := RunBefore(c.hooks, c.state);
      var entries := Entries(Declaration(s.members));
      r.Ok? && c.hooks.transform.None? && |entries| > 0 ==>
        && MergeAll(rule, s.members, entries, map[]).Ok?
        && r.value.data.Arr?
        && r.value.data.props == map["meta" := Obj(MergeAll(rule, s.members, entries, map[]).value)]
    ensures var s := RunBefore(c.hooks, c.state);
      r.Ok? && c.hooks.transform.None? ==>
        && r.value.data.Arr?
        && |r.value.data.elems| == |s.items|
        && (forall i :: 0 <= i < |s.items| ==>
              ExportModel(s.items[i]).Ok? && r.value.data.elems[i] == ExportModel(s.items[i]).value.data)
        && ("meta" in r.value.data.props <==> |Entries(Declaration(s.members))| > 0)
  {
    var s := RunBefore(c.hooks, c.state);
    var exported :- ExportAll(s.items);
    var props :- MetaProps(rule, s.members, Entries(Declaration(s.members)));
    assert EntitiesOf(exported) == ModelsAfterExport(s.items);
    var elems := DataOf(exported);
    assert |elems| == |s.items| && forall i :: 0 <= i < |s.items| ==> elems[i] == ExportModel(s.items[i]).value.data;
    var data := RunTransform(c.hooks, Arr(elems, props));
    Ok(Exported(data, Collection(RunAfter(c.hooks, CollectionState(EntitiesOf(exported), s.members)), c.hooks)))
  }

  /** `export()` on a collection. */
  function ExportCollection(c: Collection): (r: Result<Exported<Collection>>) {
    ExportCollectionBy(c, IntoCollectionMeta)
  }

  /** `export()` on a collection, exactly as line 169 is written. */
  function ExportCollectionAsWritten(c: Collection): (r: Result<Exported<Collection>>) {
    ExportCollectionBy(c, IntoCollectionMetaAsWritten)
  }
}

=== FILE: itemview.dfy ===
/**
 `Marionette.ItemView.prototype.serializeData` as the library replaces it
 (backbone.marionette.export.js, lines 193-211): the view hands its model's
 export to the template as it is, and its collection's export as
 `{ items: … }` with the keys of `items.meta` copied to the top level.
 */
module ItemView {
  import opened JsValues
  import opened Entities
  import opened Exporter

  /** The parts of a view that serializeData reads. */
  datatype View = View(model: Option<Model>, collection: Option<Collection>)

  /** The template data, and the view whose model or collection the export hooks changed. */
  datatype Rendered = Rendered(data: Value, view: View)

  /** `{ items: items }`, extended with the properties of `items.meta` when it is truthy. */
  function ItemsData(items: Value): (r: Value)
    ensures r.Obj?
    ensures !Truthy(GetProp(items, "meta")) ==> r.fields == map["items" := items]
    ensures Truthy(GetProp(items, "meta")) ==>
      r.fields.Keys == {"items"} + OwnProps(GetProp(items, "meta")).Keys
    ensures forall k :: k in OwnProps(GetProp(items, "meta")) && Truthy(GetProp(items, "meta")) ==>
      r.fields[k] == OwnProps(GetProp(items, "meta"))[k]
    ensures "items" !in OwnProps(GetProp(items, "meta")) ==> r.fields["items"] == items
  {
    var meta := GetProp(items, "meta");
    if Truthy(meta) then Obj(map["items" := items] + OwnProps(meta)) else Obj(map["items" := items])
  }

  /** serializeData, with a given rule for the collection's own entries: the
      model takes precedence over the collection; a falsy export falls back to
      `toJSON()` of the entity as the hooks left it. */
  function SerializeDataBy(v: View, rule: MergeRule): (r: Result<Rendered>)
    requires rule != IntoModelData
    ensures v.model.Some? ==> (r.Ok? <==> ExportModel(v.model.value).Ok?)
    ensures v.model.Some? && r.Ok? ==>
      var e := ExportModel(v.model.value).value;
      && r.value.view == v.(model := Some(e.entity))
      && (Truthy(e.data) ==> r.value.data == e.data)
      && (!Truthy(e.data) ==> r.value.data == ModelToJSON(e.entity.state))
    ensures v.model.Some? && r.Err? ==> r.error == ExportModel(v.model.value).error
    ensures v.model.None? && v.collection.Some? ==> (r.Ok? <==> ExportCollectionBy(v.collection.value, rule).Ok?)
    ensures v.model.None? && v.collection.Some? && r.Ok? ==>
      var e := ExportCollectionBy(v.collection.value, rule).value;
      && r.value.view == v.(collection := Some(e.entity))
      && (Truthy(e.data) ==> r.value.data == ItemsData(e.data))
      && (!Truthy(e.data) ==> r.value.data == ItemsData(CollectionToJSON(e.entity.state)))
    ensures v.model.None? && v.collection.Some? && r.Err? ==> r.error == ExportCollectionBy(v.collection.value, rule).error
    ensures v.model.None? && v.collection.None? ==> r == Ok(Rendered(Obj(map[]), v))
  {
    match v.model
    case Some(m) =>
      var e :- ExportModel(m);
      var data := if Truthy(e.data) then e.data else ModelToJSON(e.entity.state);
      Ok(Rendered(data, v.(model := Some(e.entity))))
    case None =>
      match v.collection
      case Some(c) =>
        var e :- ExportCollectionBy(c, rule);
        var items := if Truthy(e.data) then e.data else CollectionToJSON(e.entity.state);
        Ok(Rendered(ItemsData(items), v.(collection := Some(e.entity))))
      case None =>
        Ok(Rendered(Obj(map[]), v))
  }

  /** serializeData over the collection export with line 169 corrected. */
  function SerializeData(v: View): (r: Result<Rendered>) {
    SerializeDataBy(v, IntoCollectionMeta)
  }

  /** serializeData over the collection export exactly as line 169 is written. */
  function SerializeDataAsWritten(v: View): (r: Result<Rendered>) {
    SerializeDataBy(v, IntoCollectionMetaAsWritten)
  }

  /** A collection whose export carries `meta` shows every key of `meta` at the
      top level of the template data, next to `items`. */
  lemma CollectionMetaIsFlattened(c: Collection, meta: map<string, Value>)
    requires ExportCollection(c).Ok?
    requires ExportCollection(c).value.data.Arr?
    requires "meta" in ExportCollection(c).value.data.props
    requires ExportCollection(c).value.data.props["meta"] == Obj(meta)
    ensures var r := SerializeData(View(None, Some(c)));
            && r.Ok?
            && r.value.data.Obj?
            && r.value.data.fields.Keys == {"items"} + meta.Keys
            && (forall k :: k in meta ==> r.value.data.fields[k] == meta[k])
            && ("items" !in meta ==> r.value.data.fields["items"] == ExportCollection(c).value.data)
  {
  }

  /** A collection without a declaration, with the default hooks, reaches the
      template as `{ items: [ …exported models… ] }` and nothing else. */
  lemma PlainCollectionGivesItemsOnly(s: CollectionState)
    requires !Truthy(Declaration(s.members))
    requires forall i :: 0 <= i < |s.items| ==> ExportModel(s.items[i]).Ok?
    ensures var r := SerializeData(View(None, Some(Collection(s, DefaultCollectionHooks()))));
            && r.Ok?
            && r.value.data.Obj?
            && r.value.data.fields.Keys == {"items"}
            && r.value.data.fields["items"].Arr?
            && |r.value.data.fields["items"].elems| == |s.items|
  {
  }
}

=== FILE: properties.dfy ===
/**
 Properties of `export()`: how declarations are read, how resolved entries are
 merged, which errors abort the call, and the order of the lifecycle hooks.
 */
module ExportProperties {
  import opened JsValues
  import opened Entities
  import opened Exporter

  /* ----- Member names ----- */

  /** `"this.X"` names the member `X`: the prefix is dropped exactly once. */
  lemma QualifiedNameDropsPrefix(x: string)
    ensures HasThisPrefix(ThisPrefix + x)
    ensures MethodName(ThisPrefix + x) == x
  {
  }

  /** `"this.X"` and `"X"` resolve alike exactly when `X` does not itself start
      with `this.`: the prefix is only recognised at index 0, and only once. */
  lemma QualifiedAndPlainNamesAgree(members: map<string, Value>, x: string)
    ensures ResolveEntry(members, Str(ThisPrefix + x)) == ResolveEntry(members, Str(x)) <==> !HasThisPrefix(x)
  {
  }

  /** A name whose first character is not `t` carries no `this.` prefix. */
  lemma NoThisPrefixWithoutLeadingT(s: string)
    requires |s| > 0 && s[0] != 't'
    ensures !HasThisPrefix(s) && MethodName(s) == s
  {
  }

  /* ----- Normalising the declaration ----- */

  /** A one-entry list is resolved and merged once. */
  lemma MergeOne(rule: MergeRule, members: map<string, Value>, e: Value, acc: map<string, Value>)
    ensures MergeAll(rule, members, [e], acc) ==
      if ResolveEntry(members, e).Err? then Err(ResolveEntry(members, e).error)
      else Merge(rule, ResolveEntry(members, e).value, acc)
  {
  }

  /** Processing a list of entries is processing its first part, then the rest
      on what the first part produced; an error in the first part aborts. */
  lemma {:induction false} EntriesProcessedInOrder(rule: MergeRule, members: map<string, Value>,
                                                   first: seq<Value>, rest: seq<Value>, acc: map<string, Value>)
    ensures MergeAll(rule, members, first + rest, acc) ==
      match MergeAll(rule, members, first, acc)
      case Err(e) => Err(e)
      case Ok(mid) => MergeAll(rule, members, rest, mid)
    decreases |first|
  {
    if |first| > 0 {
      assert (first + rest)[0] == first[0];
      assert (first + rest)[1..] == first[1..] + rest;
      var resolved := ResolveEntry(members, first[0]);
      if resolved.Ok? {
        var merged := Merge(rule, resolved.value, acc);
        if merged.Ok? {
          EntriesProcessedInOrder(rule, members, first[1..], rest, merged.value);
        }
      }
    } else {
      assert first + rest == rest;
    }
  }

  /** Entry `e` stores a value under key `k`: it resolves to `k`, and the rule
      keeps what it resolved to (a model keeps methods only). */
  predicate Writes(rule: MergeRule, members: map<string, Value>, e: Value, k: string) {
    && ResolveEntry(members, e).Ok?
    && ResolveEntry(members, e).value.key == k
    && (rule != IntoModelData || ResolveEntry(members, e).value.target.Fn?)
  }

  /** What a writing entry stores: a method's result, or a property's value. */
  function Written(members: map<string, Value>, e: Value): Value
    requires ResolveEntry(members, e).Ok?
  {
    MetaValue(ResolveEntry(members, e).value.target)
  }

  /** One step of a successful pass: the first entry resolves and merges, and
      the rest is processed on what it produced, which is the base data with
      the entry's value stored when it writes and the base data otherwise. */
  lemma MergeStep(rule: MergeRule, members: map<string, Value>, entries: seq<Value>, acc: map<string, Value>)
    requires |entries| > 0 && MergeAll(rule, members, entries, acc).Ok?
    ensures ResolveEntry(members, entries[0]).Ok?
    ensures var r0 := ResolveEntry(members, entries[0]).value;
            && Merge(rule, r0, acc).Ok?
            && MergeAll(rule, members, entries, acc) == MergeAll(rule, members, entries[1..], Merge(rule, r0, acc).value)
            && (Writes(rule, members, entries[0], r0.key) ==>
                  Merge(rule, r0, acc).value == acc[r0.key := Written(members, entries[0])])
            && (!Writes(rule, members, entries[0], r0.key) ==> Merge(rule, r0, acc).value == acc)
  {
  }

  /** A key is in the result exactly when it was in the base data or some entry writes it. */
  lemma {:induction false} MergedKeys(rule: MergeRule, members: map<string, Value>,
                                      entries: seq<Value>, acc: map<string, Value>, k: string)
    requires MergeAll(rule, members, entries, acc).Ok?
    ensures k in MergeAll(rule, members, entries, acc).value <==>
            k in acc || exists i :: 0 <= i < |entries| && Writes(rule, members, entries[i], k)
    decreases |entries|
  {
    if |entries| > 0 {
      MergeStep(rule, members, entries, acc);
      var tail := entries[1..];
      var acc' := Merge(rule, ResolveEntry(members, entries[0]).value, acc).value;
      MergedKeys(rule, members, tail, acc', k);
      if exists i :: 0 <= i < |tail| && Writes(rule, members, tail[i], k) {
        var i :| 0 <= i < |tail| && Writes(rule, members, tail[i], k);
        assert Writes(rule, members, entries[i + 1], k);
      }
      if exists i :: 0 <= i < |entries| && Writes(rule, members, entries[i], k) {
        var i :| 0 <= i < |entries| && Writes(rule, members, entries[i], k);
        if i > 0 {
          assert Writes(rule, members, tail[i - 1], k);
        }
      }
    }
  }

  /** A key no entry writes keeps its base value. */
  lemma {:induction false} MergedUntouched(rule: MergeRule, members: map<string, Value>,
                                           entries: seq<Value>, acc: map<string, Value>, k: string)
    requires MergeAll(rule, members, entries, acc).Ok?
    requires k in acc && forall i :: 0 <= i < |entries| ==> !Writes(rule, members, entries[i], k)
    ensures k in MergeAll(rule, members, entries, acc).value
    ensures MergeAll(rule, members, entries, acc).value[k] == acc[k]
    decreases |entries|
  {
    if |entries| > 0 {
      MergeStep(rule, members, entries, acc);
      var tail := entries[1..];
      var acc' := Merge(rule, ResolveEntry(members, entries[0]).value, acc).value;
      assert !Writes(rule, members, entries[0], k);
      forall j | 0 <= j < |tail| ensures !Writes(rule, members, tail[j], k) {
        assert tail[j] == entries[j + 1];
      }
      MergedUntouched(rule, members, tail, acc', k);
    }
  }

  /** The last entry writing a key decides the key's value. */
  lemma {:induction false} MergedLastWrite(rule: MergeRule, members: map<string, Value>,
                                           entries: seq<Value>, acc: map<string, Value>, i: nat, k: string)
    requires MergeAll(rule, members, entries, acc).Ok?
    requires i < |entries| && Writes(rule, members, entries[i], k)
    requires forall j :: i < j < |entries| ==> !Writes(rule, members, entries[j], k)
    ensures k in MergeAll(rule, members, entries, acc).value
    ensures MergeAll(rule, members, entries, acc).value[k] == Written(members, entries[i])
    decreases |entries|
  {
    MergeStep(rule, members, entries, acc);
    var tail := entries[1..];
    var acc' := Merge(rule, ResolveEntry(members, entries[0]).value, acc).value;
    if i == 0 {
      forall j | 0 <= j < |tail| ensures !Writes(rule, members, tail[j], k) {
        assert tail[j] == entries[j + 1];
      }
      MergedUntouched(rule, members, tail, acc', k);
    } else {
      assert tail[i - 1] == entries[i];
      forall j | i - 1 < j < |tail| ensures !Writes(rule, members, tail[j], k) {
        assert tail[j] == entries[j + 1];
      }
      MergedLastWrite(rule, members, tail, acc', i - 1, k);
    }
  }

  /** When two entries store under the same key, the later one's result is kept. */
  lemma LaterEntryWins(rule: MergeRule, members: map<string, Value>, e1: Value, e2: Value,
                       acc: map<string, Value>, key: string, v1: Value, v2: Value)
    requires ResolveEntry(members, e1).Ok? && ResolveEntry(members, e2).Ok?
    requires ResolveEntry(members, e1).value == Resolved(key, v1) && v1.Fn?
    requires ResolveEntry(members, e2).value == Resolved(key, v2) && v2.Fn?
    ensures MergeAll(rule, members, [e1, e2], acc) == Ok(acc[key := v2.ret])
  {
    assert [e1, e2][1..] == [e2];
    assert [e2][1..] == [];
    var acc1 := acc[key := v1.ret];
    assert Merge(rule, Resolved(key, v1), acc) == Ok(acc1);
    assert MergeAll(rule, members, [e1, e2], acc) == MergeAll(rule, members, [e2], acc1);
    assert Merge(rule, Resolved(key, v2), acc1) == Ok(acc1[key := v2.ret]);
    assert MergeAll(rule, members, [e2], acc1) == MergeAll(rule, members, [], acc1[key := v2.ret]);
    assert acc1[key := v2.ret] == acc[key := v2.ret];
  }

  /** A single plain declaration acts as the one-element list holding it.
      (A single function reference does not: see ReferenceNotInArrayIsNamedExportable.) */
  lemma SingleDeclarationActsAsList(rule: MergeRule, members: map<string, Value>, d: Value,
                                    p: map<string, Value>, acc: map<string, Value>)
    requires Truthy(d) && !d.Arr? && !d.Fn?
    requires d.Str? ==> MethodName(d.s) != "exportable"
    ensures var single := members["exportable" := d];
            var list := members["exportable" := Arr([d], p)];
            MergeAll(rule, single, Entries(Declaration(single)), acc)
              == MergeAll(rule, list, Entries(Declaration(list)), acc)
  {
  }

  /* ----- Models ----- */

  /** A model without a declaration exports its attribute hash, passed through
      onExport, and the entity is left as the before and after hooks leave it. */
  lemma FalsyDeclarationExportsSnapshot(m: Model)
    requires !Truthy(Declaration(RunBefore(m.hooks, m.state).members))
    ensures var s := RunBefore(m.hooks, m.state);
            ExportModel(m) == Ok(Exported(RunTransform(m.hooks, Obj(s.attrs)), Model(RunAfter(m.hooks, s), m.hooks)))
  {
  }

  /** With the default hooks and no declaration, `export()` equals `toJSON()`
      and leaves the model as it was. */
  lemma DefaultModelExportIsToJSON(s: ModelState)
    requires !Truthy(Declaration(s.members))
    ensures ExportModel(Model(s, DefaultModelHooks())) == Ok(Exported(ModelToJSON(s), Model(s, DefaultModelHooks())))
  {
  }

  /** A declared method's result is stored under its name, replacing an
      attribute of the same name; nothing else in the hash changes. */
  lemma MethodResultOverridesAttribute(attrs: map<string, Value>, members: map<string, Value>,
                                       entry: string, id: nat, v: Value)
    requires Declaration(members) == Str(entry) && |entry| > 0
    requires MethodName(entry) in members && members[MethodName(entry)] == Fn(id, v)
    ensures var m := Model(ModelState(attrs, members), Hooks(None, None, None));
            ExportModel(m) == Ok(Exported(Obj(attrs[MethodName(entry) := v]), m))
  {
    assert Entries(Declaration(members)) == [Str(entry)];
    MergeOne(IntoModelData, members, Str(entry), attrs);
  }

  /** A declared member that is a truthy non-function leaves the hash as it is. */
  lemma PropertyLeavesModelDataUnchanged(attrs: map<string, Value>, members: map<string, Value>, entry: string)
    requires Declaration(members) == Str(entry) && |entry| > 0
    requires MethodName(entry) in members
    requires Truthy(members[MethodName(entry)]) && !members[MethodName(entry)].Fn?
    ensures var m := Model(ModelState(attrs, members), Hooks(None, None, None));
            ExportModel(m) == Ok(Exported(Obj(attrs), m))
  {
    assert Entries(Declaration(members)) == [Str(entry)];
    MergeOne(IntoModelData, members, Str(entry), attrs);
  }

  /** The hash a model exports, key by key, when there is no onExport: the last
      declared method resolving to a key stores its result there; a key no
      method writes keeps its attribute value; no other key appears. */
  lemma ModelDataByKey(m: Model, k: string)
    requires ExportModel(m).Ok? && m.hooks.transform.None?
    ensures var s := RunBefore(m.hooks, m.state);
            var entries := Entries(Declaration(s.members));
            var data := ExportModel(m).value.data;
            && data.Obj?
            && (k in data.fields <==>
                  k in s.attrs || exists i :: 0 <= i < |entries| && Writes(IntoModelData, s.members, entries[i], k))
            && (forall i :: 0 <= i < |entries| && Writes(IntoModelData, s.members, entries[i], k) &&
                            (forall j :: i < j < |entries| ==> !Writes(IntoModelData, s.members, entries[j], k)) ==>
                            k in data.fields && data.fields[k] == ResolveEntry(s.members, entries[i]).value.target.ret)
            && (k in s.attrs && (forall i :: 0 <= i < |entries| ==> !Writes(IntoModelData, s.members, entries[i], k)) ==>
                  k in data.fields && data.fields[k] == s.attrs[k])
  {
    var s := RunBefore(m.hooks, m.state);
    var entries := Entries(Declaration(s.members));
    MergedKeys(IntoModelData, s.members, entries, s.attrs, k);
    forall i | 0 <= i < |entries| && Writes(IntoModelData, s.members, entries[i], k) &&
               (forall j :: i < j < |entries| ==> !Writes(IntoModelData, s.members, entries[j], k))
      ensures k in ExportModel(m).value.data.fields
      ensures ExportModel(m).value.data.fields[k] == ResolveEntry(s.members, entries[i]).value.target.ret
    {
      MergedLastWrite(IntoModelData, s.members, entries, s.attrs, i, k);
    }
    if k in s.attrs && (forall i :: 0 <= i < |entries| ==> !Writes(IntoModelData, s.members, entries[i], k)) {
      MergedUntouched(IntoModelData, s.members, entries, s.attrs, k);
    }
  }

  /** A declaration listing two method names, one with `this.`, exports both
      results beside the attributes. */
  lemma TwoMethodNamesExportBoth(attrs: map<string, Value>, a: Value, b: Value)
    ensures var members := map["exportable" := Arr([Str("method"), Str("this.anotherMethod")], map[]),
                               "method" := Fn(0, a), "anotherMethod" := Fn(1, b)];
            var m := Model(ModelState(attrs, members), Hooks(None, None, None));
            ExportModel(m) == Ok(Exported(Obj(attrs["method" := a]["anotherMethod" := b]), m))
  {
    var members := map["exportable" := Arr([Str("method"), Str("this.anotherMethod")], map[]),
                       "method" := Fn(0, a), "anotherMethod" := Fn(1, b)];
    NoThisPrefixWithoutLeadingT("method");
    QualifiedNameDropsPrefix("anotherMethod");
    var entries := [Str("method"), Str("this.anotherMethod")];
    assert Entries(Declaration(members)) == entries;
    assert entries[1..] == [Str("this.anotherMethod")];
    MergeOne(IntoModelData, members, Str("this.anotherMethod"), attrs["method" := a]);
  }

  /** A model with attribute `id: 1` and an exportable method `greet` returning
      `"hi"` exports `{id: 1, greet: "hi"}`. */
  lemma GreetExample()
    ensures var greet := Fn(0, Str("hi"));
            var m := Model(ModelState(map["id" := Num(1)], map["exportable" := Str("greet"), "greet" := greet]),
                           DefaultModelHooks());
            ExportModel(m).Ok? && ExportModel(m).value.data == Obj(map["id" := Num(1), "greet" := Str("hi")])
  {
    var greet := Fn(0, Str("hi"));
    var members := map["exportable" := Str("greet"), "greet" := greet];
    NoThisPrefixWithoutLeadingT("greet");
    assert Entries(Declaration(members)) == [Str("greet")];
    MergeOne(IntoModelData, members, Str("greet"), map["id" := Num(1)]);
  }

  /* ----- Errors ----- */

  /** A failed call fails with the error of the first entry that does not
      resolve; every entry before it resolved. */
  lemma {:induction false} FirstBadEntryAborts(rule: MergeRule, members: map<string, Value>,
                                               entries: seq<Value>, acc: map<string, Value>)
    requires rule != IntoCollectionMetaAsWritten
    requires MergeAll(rule, members, entries, acc).Err?
    ensures exists i :: 0 <= i < |entries| &&
              ResolveEntry(members, entries[i]) == Err(MergeAll(rule, members, entries, acc).error) &&
              (forall j :: 0 <= j < i ==> ResolveEntry(members, entries[j]).Ok?)
    decreases |entries|
  {
    var e := MergeAll(rule, members, entries, acc).error;
    var r := ResolveEntry(members, entries[0]);
    if r.Err? {
      assert ResolveEntry(members, entries[0]) == Err(e);
    } else {
      var acc' := Merge(rule, r.value, acc).value;
      FirstBadEntryAborts(rule, members, entries[1..], acc');
      var i :| 0 <= i < |entries[1..]| && ResolveEntry(members, entries[1..][i]) == Err(e) &&
               forall j :: 0 <= j < i ==> ResolveEntry(members, entries[1..][j]).Ok?;
      assert ResolveEntry(members, entries[i + 1]) == Err(e);
      forall j | 0 <= j < i + 1 ensures ResolveEntry(members, entries[j]).Ok? {
        if j > 0 {
          assert entries[j] == entries[1..][j - 1];
        }
      }
    }
  }

  /** A model's `export()` that fails, fails with the error of the first entry
      of its declaration (as onBeforeExport left it) that does not resolve. */
  lemma ModelExportFailsAtFirstBadEntry(m: Model)
    requires ExportModel(m).Err?
    ensures var s := RunBefore(m.hooks, m.state);
            var entries := Entries(Declaration(s.members));
            exists i :: 0 <= i < |entries| &&
              ResolveEntry(s.members, entries[i]) == Err(ExportModel(m).error) &&
              (forall j :: 0 <= j < i ==> ResolveEntry(s.members, entries[j]).Ok?)
  {
    var s := RunBefore(m.hooks, m.state);
    FirstBadEntryAborts(IntoModelData, s.members, Entries(Declaration(s.members)), s.attrs);
  }

  /** A collection's `export()` that fails, fails with the error of the first
      model whose export fails; when every model exports, with the error of the
      first entry of its declaration (as onBeforeExport left it) that does not
      resolve. */
  lemma CollectionExportFailsAtFirstError(c: Collection)
    ensures var s := RunBefore(c.hooks, c.state);
            var entries := Entries(Declaration(s.members));
            ExportCollection(c).Err? ==>
            || (exists i :: 0 <= i < |s.items| && ExportModel(s.items[i]) == Err(ExportCollection(c).error) &&
                            forall j :: 0 <= j < i ==> ExportModel(s.items[j]).Ok?)
            || ((forall i :: 0 <= i < |s.items| ==> ExportModel(s.items[i]).Ok?) &&
                exists i :: 0 <= i < |entries| && ResolveEntry(s.members, entries[i]) == Err(ExportCollection(c).error) &&
                            forall j :: 0 <= j < i ==> ResolveEntry(s.members, entries[j]).Ok?)
  {
    var s := RunBefore(c.hooks, c.state);
    var entries := Entries(Declaration(s.members));
    if ExportCollection(c).Err? && forall i :: 0 <= i < |s.items| ==> ExportModel(s.items[i]).Ok? {
      assert MergeAll(IntoCollectionMeta, s.members, entries, map[]).Err?;
      FirstBadEntryAborts(IntoCollectionMeta, s.members, entries, map[]);
    }
  }

  /** A collection whose declaration names a missing member fails naming that
      member, once its models have exported. */
  lemma CollectionMissingMemberFails(items: seq<Model>, members: map<string, Value>)
    requires Declaration(members) == Str("missing") && "missing" !in members
    requires forall i :: 0 <= i < |items| ==> ExportModel(items[i]).Ok?
    ensures ExportCollection(Collection(CollectionState(items, members), DefaultCollectionHooks()))
         == Err(MissingMethod("missing"))
  {
    NoThisPrefixWithoutLeadingT("missing");
    var c := Collection(CollectionState(items, members), DefaultCollectionHooks());
    assert Entries(Declaration(members)) == [Str("missing")];
    CollectionExportFailsAtFirstError(c);
  }

  /** A model whose declaration names a missing member fails naming that
      member, and returns nothing. */
  lemma MissingMemberFails(attrs: map<string, Value>, members: map<string, Value>)
    requires Declaration(members) == Str("missing") && "missing" !in members
    ensures ExportModel(Model(ModelState(attrs, members), DefaultModelHooks())) == Err(MissingMethod("missing"))
  {
    NoThisPrefixWithoutLeadingT("missing");
    assert Entries(Declaration(members)) == [Str("missing")];
    MergeOne(IntoModelData, members, Str("missing"), attrs);
  }

  /** An `undefined` entry and an entry that is neither string nor function fail
      with their own messages. */
  lemma BadEntryMessages(attrs: map<string, Value>, members: map<string, Value>, other: Value)
    requires !other.Undefined? && !other.Str? && !other.Fn?
    ensures var m := ModelState(attrs, members["exportable" := Arr([Undefined], map[])]);
            var r := ExportModel(Model(m, DefaultModelHooks()));
            r.Err? && Message(r.error) == "Can't export method. Undefined method reference"
    ensures var m := ModelState(attrs, members["exportable" := Arr([other], map[])]);
            var r := ExportModel(Model(m, DefaultModelHooks()));
            r.Err? && Message(r.error) == "'exportable' property: Invalid method identifier"
  {
  }

  /* ----- Function references ----- */

  /** A function reference held by exactly one member is stored under that
      member's name. */
  lemma ReferenceTakesItsMemberName(members: map<string, Value>, name: string, f: Value)
    requires f.Fn? && name in members && members[name] == f
    requires forall n :: n in members && n != name ==> members[n] != f
    ensures ResolveEntry(members, f) == Ok(Resolved(name, f))
  {
  }

  /** A function reference no member holds is stored under "undefined". */
  lemma UnknownReferenceIsNamedUndefined(members: map<string, Value>, f: Value)
    requires f.Fn? && forall n :: n in members ==> members[n] != f
    ensures ResolveEntry(members, f) == Ok(Resolved("undefined", f))
  {
  }

  /** `this.exportable = this.foo` (a reference not wrapped in an array) exports
      foo's result under the name "exportable": both members hold the
      reference, and "exportable" sorts first. */
  lemma ReferenceNotInArrayIsNamedExportable(id: nat, v: Value)
    ensures var foo := Fn(id, v);
            var m := Model(ModelState(map[], map["exportable" := foo, "foo" := foo]), Hooks(None, None, None));
            ExportModel(m) == Ok(Exported(Obj(map["exportable" := v]), m))
  {
    var foo := Fn(id, v);
    var members := map["exportable" := foo, "foo" := foo];
    assert members["foo"] == foo;
    var name := FunctionName(members, foo);
    assert name.Some?;
    assert !StrLe("foo", "exportable");
    assert name.value == "exportable";
    assert Entries(Declaration(members)) == [foo];
    MergeOne(IntoModelData, members, foo, map[]);
    assert map[]["exportable" := v] == map["exportable" := v];
  }

  /* ----- Hook order, models ----- */

  /** onBeforeExport runs first: exporting is the same as running it by hand
      and exporting without it. */
  lemma BeforeHookChangesAreVisible(m: Model, f: ModelState -> ModelState)
    requires m.hooks.before == Some(f)
    ensures var m' := Model(f(m.state), m.hooks.(before := None));
            && ExportModel(m).Ok? == ExportModel(m').Ok?
            && (ExportModel(m).Ok? ==>
                  ExportModel(m).value.data == ExportModel(m').value.data &&
                  ExportModel(m).value.entity.state == ExportModel(m').value.entity.state)
  {
  }

  /** onExport receives the merged hash, and what it returns is the result. */
  lemma TransformReceivesMergedData(m: Model, t: Value -> Value)
    requires m.hooks.transform == Some(t)
    ensures var m' := m.(hooks := m.hooks.(transform := None));
            && ExportModel(m).Ok? == ExportModel(m').Ok?
            && (ExportModel(m).Ok? ==>
                  ExportModel(m).value.data == t(ExportModel(m').value.data) &&
                  ExportModel(m).value.entity.state == ExportModel(m').value.entity.state)
  {
  }

  /** onAfterExport runs last: it changes the entity, never the returned data. */
  lemma AfterHookCannotChangeData(m: Model, g: ModelState -> ModelState)
    requires m.hooks.after == Some(g)
    ensures var m' := m.(hooks := m.hooks.(after := None));
            && ExportModel(m).Ok? == ExportModel(m').Ok?
            && (ExportModel(m).Ok? ==>
                  ExportModel(m).value.data == ExportModel(m').value.data &&
                  ExportModel(m).value.entity.state == g(ExportModel(m').value.entity.state))
  {
  }

  /* ----- Collections ----- */

  /** A collection without a declaration, and with the default hooks, exports
      the array of its models' exports and no `meta`. */
  lemma DefaultCollectionExport(s: CollectionState)
    requires !Truthy(Declaration(s.members))
    requires forall i :: 0 <= i < |s.items| ==> ExportModel(s.items[i]).Ok?
    ensures var r := ExportCollection(Collection(s, DefaultCollectionHooks()));
            && r.Ok?
            && r.value.data.Arr?
            && r.value.data.props == map[]
            && |r.value.data.elems| == |s.items|
            && forall i :: 0 <= i < |s.items| ==> r.value.data.elems[i] == ExportModel(s.items[i]).value.data
  {
  }

  /** With the default hooks and no declaration on the collection or on any of
      its models, a collection's `export()` equals its `toJSON()`. */
  lemma DefaultCollectionExportIsToJSON(s: CollectionState)
    requires !Truthy(Declaration(s.members))
    requires forall i :: 0 <= i < |s.items| ==>
               s.items[i].hooks == DefaultModelHooks() && !Truthy(Declaration(s.items[i].state.members))
    ensures ExportCollection(Collection(s, DefaultCollectionHooks())).Ok?
    ensures ExportCollection(Collection(s, DefaultCollectionHooks())).value.data == CollectionToJSON(s)
  {
    forall i | 0 <= i < |s.items|
      ensures ExportModel(s.items[i]) == Ok(Exported(ModelToJSON(s.items[i].state), s.items[i]))
    {
      DefaultModelExportIsToJSON(s.items[i].state);
    }
  }

  /** The collection's own declaration never changes the exported models: two
      collections differing only in their members export the same elements. */
  lemma DeclarationNeverAltersElements(items: seq<Model>, members1: map<string, Value>,
                                       members2: map<string, Value>, after: Option<CollectionState -> CollectionState>)
    requires ExportCollection(Collection(CollectionState(items, members1), Hooks(None, None, after))).Ok?
    requires ExportCollection(Collection(CollectionState(items, members2), Hooks(None, None, after))).Ok?
    ensures ExportCollection(Collection(CollectionState(items, members1), Hooks(None, None, after))).value.data.elems
         == ExportCollection(Collection(CollectionState(items, members2), Hooks(None, None, after))).value.data.elems
  {
  }

  /** A collection's declared member goes into `meta` under its name: a
      method's result or a property's value. */
  lemma CollectionEntryGoesIntoMeta(s: CollectionState, entry: string)
    requires Declaration(s.members) == Str(entry) && |entry| > 0
    requires Truthy(Lookup(s.members, MethodName(entry)))
    requires forall i :: 0 <= i < |s.items| ==> ExportModel(s.items[i]).Ok?
    ensures var r := ExportCollection(Collection(s, Hooks(None, None, None)));
            && r.Ok?
            && r.value.data.props == map["meta" := Obj(map[MethodName(entry) := MetaValue(s.members[MethodName(entry)])])]
  {
    var name := MethodName(entry);
    assert Entries(Declaration(s.members)) == [Str(entry)];
    MergeOne(IntoCollectionMeta, s.members, Str(entry), map[]);
    assert MergeAll(IntoCollectionMeta, s.members, [Str(entry)], map[]) == Ok(map[][name := MetaValue(s.members[name])]);
    assert map[][name := MetaValue(s.members[name])] == map[name := MetaValue(s.members[name])];
  }

  /** A collection's `meta`, key by key, when there is no onExport: it holds
      exactly the keys its entries resolve to, and the last entry resolving to
      a key decides the value there, a method's result or a property's value. */
  lemma CollectionMetaByKey(c: Collection, k: string)
    requires ExportCollection(c).Ok? && c.hooks.transform.None?
    requires |Entries(Declaration(RunBefore(c.hooks, c.state).members))| > 0
    ensures var s := RunBefore(c.hooks, c.state);
            var entries := Entries(Declaration(s.members));
            var data := ExportCollection(c).value.data;
            && data.Arr? && "meta" in data.props && data.props["meta"].Obj?
            && (k in data.props["meta"].fields <==>
                  exists i :: 0 <= i < |entries| && Writes(IntoCollectionMeta, s.members, entries[i], k))
            && (forall i :: 0 <= i < |entries| && Writes(IntoCollectionMeta, s.members, entries[i], k) &&
                            (forall j :: i < j < |entries| ==> !Writes(IntoCollectionMeta, s.members, entries[j], k)) ==>
                            k in data.props["meta"].fields &&
                            data.props["meta"].fields[k] == MetaValue(ResolveEntry(s.members, entries[i]).value.target))
  {
    var s := RunBefore(c.hooks, c.state);
    var entries := Entries(Declaration(s.members));
    MergedKeys(IntoCollectionMeta, s.members, entries, map[], k);
    forall i | 0 <= i < |entries| && Writes(IntoCollectionMeta, s.members, entries[i], k) &&
               (forall j :: i < j < |entries| ==> !Writes(IntoCollectionMeta, s.members, entries[j], k))
      ensures k in ExportCollection(c).value.data.props["meta"].fields
      ensures ExportCollection(c).value.data.props["meta"].fields[k] == MetaValue(ResolveEntry(s.members, entries[i]).value.target)
    {
      MergedLastWrite(IntoCollectionMeta, s.members, entries, map[], i, k);
    }
  }

  /** onBeforeExport runs before the models are exported: exporting is the
      same as running it by hand and exporting without it. */
  lemma CollectionBeforeHookChangesAreVisible(c: Collection, f: CollectionState -> CollectionState)
    requires c.hooks.before == Some(f)
    ensures var c' := Collection(f(c.state), c.hooks.(before := None));
            && ExportCollection(c).Ok? == ExportCollection(c').Ok?
            && (ExportCollection(c).Ok? ==>
                  ExportCollection(c).value.data == ExportCollection(c').value.data &&
                  ExportCollection(c).value.entity.state == ExportCollection(c').value.entity.state)
  {
  }

  /** A collection's onExport receives the array with its `meta`, and what it
      returns is the result. */
  lemma CollectionTransformReceivesMergedData(c: Collection, t: Value -> Value)
    requires c.hooks.transform == Some(t)
    ensures var c' := c.(hooks := c.hooks.(transform := None));
            && ExportCollection(c).Ok? == ExportCollection(c').Ok?
            && (ExportCollection(c).Ok? ==>
                  ExportCollection(c).value.data == t(ExportCollection(c').value.data) &&
                  ExportCollection(c).value.entity.state == ExportCollection(c').value.entity.state)
  {
  }

  /** A collection's onAfterExport changes the collection, never the returned data. */
  lemma CollectionAfterHookCannotChangeData(c: Collection, g: CollectionState -> CollectionState)
    requires c.hooks.after == Some(g)
    ensures var c' := c.(hooks := c.hooks.(after := None));
            && ExportCollection(c).Ok? == ExportCollection(c').Ok?
            && (ExportCollection(c).Ok? ==>
                  ExportCollection(c).value.data == ExportCollection(c').value.data &&
                  ExportCollection(c).value.entity.state == g(ExportCollection(c').value.entity.state))
  {
  }
}

=== FILE: values.dfy ===
/**
 JavaScript values as the export routine sees them: the attribute values of a
 model, the members found on an entity object, and the data handed to templates.
 */
module JsValues {

  datatype Option<+T> = None | Some(value: T)

  /** A JavaScript value.
      - `Fn(id, ret)` is a function object: `id` stands for its identity and
        `ret` for what it returns when called with no arguments.
      - `Arr(elems, props)` is an array together with the named (non-index)
        properties hung on the array object, such as `meta`.
      - Numbers are integers here. */
  datatype Value =
    | Undefined
    | Null
    | Bool(b: bool)
    | Num(n: int)
    | Str(s: string)
    | Fn(id: nat, ret: Value)
    | Arr(elems: seq<Value>, props: map<string, Value>)
    | Obj(fields: map<string, Value>)

  /** JavaScript truthiness: `undefined`, `null`, `false`, `0` and `""` are falsy. */
  predicate Truthy(v: Value) {
    match v
    case Undefined => false
    case Null => false
    case Bool(b) => b
    case Num(n) => n != 0
    case Str(s) => |s| > 0
    case _ => true
  }

  /** Property access `obj[key]` for the objects the export routine builds. */
  function GetProp(v: Value, key: string): Value
  {
    match v
    case Obj(f) => if key in f then f[key] else Undefined
    case Arr(_, p) => if key in p then p[key] else Undefined
    case _ => Undefined
  }

  /** The named own properties `_.extend` copies from a value. */
  function OwnProps(v: Value): map<string, Value> {
    match v
    case Obj(f) => f
    case Arr(_, p) => p
    case _ => map[]
  }

  /** Map lookup with JavaScript's missing-property result. */
  function Lookup(m: map<string, Value>, key: string): Value
  {
    if key in m then m[key] else Undefined
  }

  /** The default string order of `Array.prototype.sort`, character by character. */
  predicate StrLe(a: string, b: string) {
    |a| == 0 || (|b| > 0 && (a[0] < b[0] || (a[0] == b[0] && StrLe(a[1..], b[1..]))))
  }

  lemma {:induction false} StrLeReflexive(a: string)
    ensures StrLe(a, a)
    decreases |a|
  {
    if |a| > 0 {
      StrLeReflexive(a[1..]);
    }
  }

  lemma {:induction false} StrLeTotal(a: string, b: string)
    ensures StrLe(a, b) || StrLe(b, a)
    decreases |a|
  {
    if |a| > 0 && |b| > 0 && a[0] == b[0] {
      StrLeTotal(a[1..], b[1..]);
    }
  }

  lemma {:induction false} StrLeAntisymmetric(a: string, b: string)
    requires StrLe(a, b) && StrLe(b, a)
    ensures a == b
    decreases |a|
  {
    if |a| > 0 {
      StrLeAntisymmetric(a[1..], b[1..]);
      assert a == [a[0]] + a[1..];
      assert b == [b[0]] + b[1..];
    }
  }

  lemma {:induction false} StrLeTransitive(a: string, b: string, c: string)
    requires StrLe(a, b) && StrLe(b, c)
    ensures StrLe(a, c)
    decreases |a|
  {
    if |a| > 0 && a[0] == b[0] && b[0] == c[0] {
      StrLeTransitive(a[1..], b[1..], c[1..]);
    }
  }

  predicate IsLeast(x: string, s: set<string>) {
    x in s && forall y :: y in s ==> StrLe(x, y)
  }

  /** Every finite non-empty set of strings has a least element. */
  lemma {:induction false} LeastExists(s: set<string>)
    requires s != {}
    ensures exists x :: IsLeast(x, s)
    decreases |s|
  {
    var y :| y in s;
    StrLeReflexive(y);
    if s == {y} {
      assert IsLeast(y, s);
    } else {
      var rest := s - {y};
      LeastExists(rest);
      var x :| IsLeast(x, rest);
      StrLeTotal(x, y);
      if StrLe(x, y) {
        assert IsLeast(x, s);
      } else {
        forall z | z in s ensures StrLe(y, z) {
          if z != y {
            StrLeTransitive(y, x, z);
          }
        }
        assert IsLeast(y, s);
      }
    }
  }

  /** The least string of a finite non-empty set: the one a sorted list starts with. */
  function Least(s: set<string>): (r: string)
    requires s != {}
    ensures r in s
    ensures forall y :: y in s ==> StrLe(r, y)
  {
    LeastExists(s);
    LeastUnique(s);
    var x :| IsLeast(x, s);
    x
  }

  lemma LeastUnique(s: set<string>)
    ensures forall x, y :: IsLeast(x, s) && IsLeast(y, s) ==> x == y
  {
    forall x, y | IsLeast(x, s) && IsLeast(y, s) ensures x == y {
      StrLeAntisymmetric(x, y);
    }
  }
}
